=== FILE: README.md ===
# TeXiFy-IDEA log extraction, if/fi inspection and compiler helpers in Dafny

This project models three parts of the TeXiFy-IDEA plugin for LaTeX and proves properties of them.

- **The log-message extractor** of the run window's "Log messages" tab (`LatexOutputListener`). It receives the compiler's console output one line at a time. It keeps a window of the two latest lines. It detects errors (`file:line: message`) and warnings (19 literal prefixes) in the window's joined text, looking at the previous line with the current line as lookahead. A message whose text before the current line reaches the 79-column line width (counted, as Kotlin's `String.length` counts, in UTF-16 units) is treated as wrapped: it is collected until a line shorter than 79 arrives. Every finished message is appended to the tab's list.
  - `LogPatterns` (`log_patterns.dfy`) holds the error regular expression, written out as an explicit matcher, plus the warning table and the string helpers.
  - `LogListener` (`log_listener.dfy`) holds `Step`, a pure specification of one `onTextAvailable` call over the listener's fields, and the class `LatexOutputListener`. The class updates those fields in place, and its methods are proved to follow `Step`.
- **The non-matching `\if` inspection** (`NonMatchingIf`, `if_inspection.dfy`). The commands of a file are sorted by offset and scanned with a stack of open `\if` commands. An end-if that finds the stack empty is reported as an error. Every `\if` still open at the end gets a warning.
- **Compiler naming helpers** (`LatexCompiler`, `latex_compiler.dfy`): the case-insensitive output-format lookup, the converter between compilers and strings, the default capabilities, and the command line of a custom compiler.

`Wrappers` (`wrappers.dfy`) supplies `Option`, which stands for Kotlin's nullable types.

## How the code behaves in corner cases

The model follows the code, including these corner cases. The code comments at `src/nl/hannahsten/texifyidea/run/latex/ui/LatexLogTabComponent.kt:67-75` explain the two-line window and the wrap rule; they do not mention these cases:

- A warning is detected when the joined window text starts with a prefix, but what gets logged is the window text minus the current line (`src/nl/hannahsten/texifyidea/run/latex/ui/LatexLogTabComponent.kt:106`). So a warning on the very first line logs the empty string on arrival (`FirstLineWarningLogsEmpty`), and, when it is shorter than the width and neither the line nor the line followed by the next one matches the error pattern, the line itself when the next line arrives: two entries, `""` and then the line (`FirstLineWarningLoggedTwice`).
- The error message is the captured group minus the current line's length (`src/nl/hannahsten/texifyidea/run/latex/ui/LatexLogTabComponent.kt:91`). When the match lies inside the current line, that group is shorter than the line and `substringEnd` goes out of range. The model makes this an explicit outcome, `SubstringEndOutOfRange`: the window has been updated, nothing else has changed, and the warning check does not run. This happens:
  - for every error line on the first line of output (`FirstLineErrorFails`);
  - for every error line that arrives while the listener is idle (not collecting) behind a non-empty line that holds no line terminator, provided no ':' in its message is followed by a digit (`ErrorLineFailsOnArrival`); messages such as `LaTeX Error: File not found.` qualify. While collecting, the line goes to `collectMessageLine` and nothing fails; an older line holding U+0085, U+2028 or U+2029 stops the pattern from matching, and the call ends normally.

  The error is then reported one call later, when the next line arrives, provided no ':' in the message followed by the next line is followed by a digit (`ErrorReportedOnNextLine`).
- When that next line is itself an error line, it fails on arrival in turn, and the call after it pushes the first error line out of the window, so the first error is never reported (`BackToBackErrorDropsFirst`).
- In the same way, a warning line directly followed by an error line is never logged: the error line fails on arrival before the warning check runs, and the call after it pushes the warning line out of the window (`WarningBeforeErrorLineLost`). A warning line is therefore reported on the next line only when the window text does not match the error pattern (`WarningReportedOnNextLine`).
- The error check and the warning check are two separate `if`s, so one call can log two messages (`StepAppendsOnly`).
- Nothing flushes a message that is still being collected when the process ends.

## Model

| member | source | states |
|---|---|---|
| LogPatterns.StartsWithWarningSpec | src/nl/hannahsten/texifyidea/run/latex/ui/LatexLogTabComponent.kt:105 | `StartsWithWarning`, the test `TEX_WARNINGS.any { text.startsWith(it) }`, holds exactly when one of the 19 listed prefixes starts the text |
| LogPatterns.StartsWithWarningFromSpec | src/nl/hannahsten/texifyidea/run/latex/ui/LatexLogTabComponent.kt:150-170 | the scan of the warning table from entry k finds a prefix exactly when one of the entries from k on starts the text |
| LogPatterns.Utf16Length | src/nl/hannahsten/texifyidea/run/latex/ui/LatexLogTabComponent.kt:93 | Kotlin's `String.length`, used in the three width tests (lines 93, 108, 125): between one and two units per character |
| LogPatterns.Utf16LengthConcat | src/nl/hannahsten/texifyidea/run/latex/ui/LatexLogTabComponent.kt:93 | the length of a concatenation is the sum of the lengths |
| LogPatterns.Utf16LengthBmp | src/nl/hannahsten/texifyidea/run/latex/ui/LatexLogTabComponent.kt:125 | the length equals the number of characters exactly when no character lies above U+FFFF |
| LogPatterns.TrimLineEnd | src/nl/hannahsten/texifyidea/run/latex/ui/LatexLogTabComponent.kt:77 | the result is a prefix of the input that does not end in `'\n'` or `'\r'`, and everything removed is `'\n'` or `'\r'` |
| LogPatterns.SubstringEnd | src/nl/hannahsten/texifyidea/run/latex/ui/LatexLogTabComponent.kt:91 | dropping the last n characters succeeds exactly when n is at most the length; the result plus the dropped tail is the input |
| LogPatterns.DigitsEnd | src/nl/hannahsten/texifyidea/run/latex/ui/LatexLogTabComponent.kt:149 | `\d+` takes the maximal run of ASCII digits |
| LogPatterns.BeforeFinalTerminator | src/nl/hannahsten/texifyidea/run/latex/ui/LatexLogTabComponent.kt:149 | `$` may match before a final line terminator: the text considered is a prefix at most two characters shorter, and it is shorter only when the text ends in a line terminator |
| LogPatterns.MessageAt | src/nl/hannahsten/texifyidea/run/latex/ui/LatexLogTabComponent.kt:149 | the message group after a split is a non-empty suffix, at least four characters shorter than the text |
| LogPatterns.RightmostSplit | src/nl/hannahsten/texifyidea/run/latex/ui/LatexLogTabComponent.kt:149 | finds the rightmost position where ':' + digits + ": " + one or more characters can follow, or reports that there is none (the file group is greedy and optional) |
| LogPatterns.MatchError | src/nl/hannahsten/texifyidea/run/latex/ui/LatexLogTabComponent.kt:149 | a match's message group is a non-empty suffix of the text, at least four characters shorter |
| LogPatterns.MatchErrorIsRightmostSplit | src/nl/hannahsten/texifyidea/run/latex/ui/LatexLogTabComponent.kt:149 | the pattern matches iff the text (up to a final terminator) has no line terminator and splits somewhere; the message is the one after the rightmost split |
| LogPatterns.ErrorLineRoundTrip | src/nl/hannahsten/texifyidea/run/latex/ui/LatexLogTabComponent.kt:149 | matching `file + ":" + digits + ": " + message` gives back the message when no ':' of the message is followed by a digit (so `LaTeX Error: …` messages qualify), for any file part, even an empty one or one with colons |
| LogListener.AddToWindowKeepsLatest | src/nl/hannahsten/texifyidea/run/latex/ui/LatexLogTabComponent.kt:59 | `AddToWindow`: the window keeps the latest lines added, at most two of them, oldest first |
| LogListener.CollectStep | src/nl/hannahsten/texifyidea/run/latex/ui/LatexLogTabComponent.kt:122-129 | collecting leaves the window alone, keeps a message buffer, never starts collecting, and appends at most one log entry |
| LogListener.LogOrCollect | src/nl/hannahsten/texifyidea/run/latex/ui/LatexLogTabComponent.kt:93-101 | starting a message or logging one keeps the window and the invariant, and appends at most one entry |
| LogListener.ErrorCheck | src/nl/hannahsten/texifyidea/run/latex/ui/LatexLogTabComponent.kt:90-102 | the error branch, when it completes, keeps the window and the invariant, and appends at most one entry |
| LogListener.WarningCheck | src/nl/hannahsten/texifyidea/run/latex/ui/LatexLogTabComponent.kt:105-117 | the warning branch keeps the window and the invariant, and appends at most one entry |
| LogListener.Step | src/nl/hannahsten/texifyidea/run/latex/ui/LatexLogTabComponent.kt:64-120 | every call keeps the invariant: at most two window lines, and a message buffer whenever collecting, so the `!!` at line 127 cannot fail |
| LogListener.Run | src/nl/hannahsten/texifyidea/run/latex/ui/LatexLogTabComponent.kt:64-120 | a sequence of calls keeps the invariant |
| LogListener.StepIgnoresOtherOutput | src/nl/hannahsten/texifyidea/run/latex/ui/LatexLogTabComponent.kt:65 | an event that is not process output changes nothing |
| LogListener.JoinWindow | src/nl/hannahsten/texifyidea/run/latex/ui/LatexLogTabComponent.kt:79 | `Join`, i.e. `joinToString(separator = "")`: the window text is the lines joined without separator, older line first |
| LogListener.StepUpdatesWindow | src/nl/hannahsten/texifyidea/run/latex/ui/LatexLogTabComponent.kt:77-78 | after an accepted event the window has one or two lines; the newest is the trimmed event text and the older one is the previous newest line |
| LogListener.StepWhileCollecting | src/nl/hannahsten/texifyidea/run/latex/ui/LatexLogTabComponent.kt:122-129 | while collecting, no detection runs and the line is appended; a line shorter than the width (in UTF-16 units) ends collection and logs exactly buffer + line, and a longer one logs nothing |
| LogListener.StepSkipsAfterEmptyLine | src/nl/hannahsten/texifyidea/run/latex/ui/LatexLogTabComponent.kt:87 | when idle and the older window line is empty, the call only moves the window |
| LogListener.ErrorCheckCases | src/nl/hannahsten/texifyidea/run/latex/ui/LatexLogTabComponent.kt:90-102 | the error message is the group minus \|line\| characters, and the call fails iff the group is shorter than the line; the message wraps iff the text before the current line is at least the width long in UTF-16 units (`>=`), and is logged otherwise |
| LogListener.ErrorMessageFromOlderLine | src/nl/hannahsten/texifyidea/run/latex/ui/LatexLogTabComponent.kt:91 | the logged error message is a suffix of the older line, and group = message + current line |
| LogListener.WarningCheckCases | src/nl/hannahsten/texifyidea/run/latex/ui/LatexLogTabComponent.kt:105-117 | the warning candidate is the text minus the current line; it is logged if shorter than the width, and otherwise collection starts and the current line is fed at once |
| LogListener.WarningCandidateIsOlderLine | src/nl/hannahsten/texifyidea/run/latex/ui/LatexLogTabComponent.kt:106 | the warning candidate is the older window line, or "" when the window holds one line |
| LogListener.StepAppendsOnly | src/nl/hannahsten/texifyidea/run/latex/ui/LatexLogTabComponent.kt:131-133 | the log is only appended to: at most 2 entries for an idle call, at most 1 for a collecting call, none for a failed call |
| LogListener.FirstLineErrorFails | src/nl/hannahsten/texifyidea/run/latex/ui/LatexLogTabComponent.kt:91 | an error on the first line of output makes `substringEnd` go out of range; only the window changes |
| LogListener.ErrorLineFailsOnArrival | src/nl/hannahsten/texifyidea/run/latex/ui/LatexLogTabComponent.kt:90-91 | an error line whose message has no ':' followed by a digit, arriving while the listener is idle behind a non-empty line that holds no line terminator, makes the call fail; only the window changes |
| LogListener.ErrorReportedOnNextLine | src/nl/hannahsten/texifyidea/run/latex/ui/LatexLogTabComponent.kt:90-101 | an error line shorter than the width is logged with exactly its message when the next line arrives, provided no ':' in message + next line is followed by a digit |
| LogListener.BackToBackErrorDropsFirst | src/nl/hannahsten/texifyidea/run/latex/ui/LatexLogTabComponent.kt:90-91 | a second error line (no ':' followed by a digit in its message) right after an error line fails on arrival with the log unchanged, and the next call leaves only the second line and the new one in the window, so the first error is never reported |
| LogListener.WrappedErrorReassembled | src/nl/hannahsten/texifyidea/run/latex/ui/LatexLogTabComponent.kt:93-98 | an error line that fills the width, followed by a shorter line, is logged once as message + next line, and the listener is idle again, provided no ':' in message + next line is followed by a digit and the error line + next line does not start with a warning prefix |
| LogListener.WarningReportedOnNextLine | src/nl/hannahsten/texifyidea/run/latex/ui/LatexLogTabComponent.kt:105-117 | a warning line is logged verbatim when the next line arrives if shorter than the width; if it fills the width and the next line is shorter, it is logged as line + next line; provided the window text (warning line + next line) does not match the error pattern |
| LogListener.FirstLineWarningLogsEmpty | src/nl/hannahsten/texifyidea/run/latex/ui/LatexLogTabComponent.kt:106-115 | a warning on the very first line logs the empty string on arrival, and the listener stays idle with the line as its window |
| LogListener.FirstLineWarningLoggedTwice | src/nl/hannahsten/texifyidea/run/latex/ui/LatexLogTabComponent.kt:105-115 | a first-line warning shorter than the width, with no error match in the line or the line + next line, is logged twice: `""` on arrival, then the line itself when the next line arrives |
| LogListener.WarningBeforeErrorLineLost | src/nl/hannahsten/texifyidea/run/latex/ui/LatexLogTabComponent.kt:90-91 | an error line (no ':' followed by a digit in its message) arriving idle right after a warning line with no line terminator fails before the warning check, with the log unchanged, and the next call leaves only the error line and the new one in the window, so the warning is never logged |
| LogListener.RunExtendsLog | src/nl/hannahsten/texifyidea/run/latex/ui/LatexLogTabComponent.kt:131-133 | over any sequence of events the earlier log is a prefix of the later one, growing by at most two per event |
| LogListener.LatexOutputListener.constructor | src/nl/hannahsten/texifyidea/run/latex/ui/LatexLogTabComponent.kt:54-62 | a new listener has width 79 by default, an empty window, is idle, and has no message and an empty log |
| LogListener.LatexOutputListener.OnTextAvailable | src/nl/hannahsten/texifyidea/run/latex/ui/LatexLogTabComponent.kt:64-120 | the in-place update of window, flag, message and log equals `Step` of the old fields, and the invariant is kept |
| LogListener.LatexOutputListener.ReportError | src/nl/hannahsten/texifyidea/run/latex/ui/LatexLogTabComponent.kt:90-102 | the error branch in place: it equals `ErrorCheck`, and when `substringEnd` fails nothing has changed |
| LogListener.LatexOutputListener.ReportWarning | src/nl/hannahsten/texifyidea/run/latex/ui/LatexLogTabComponent.kt:105-117 | the warning branch in place equals `WarningCheck` |
| LogListener.LatexOutputListener.CollectMessageLine | src/nl/hannahsten/texifyidea/run/latex/ui/LatexLogTabComponent.kt:122-129 | `collectMessageLine` in place equals `CollectStep` |
| LogListener.LatexOutputListener.AddMessageToLog | src/nl/hannahsten/texifyidea/run/latex/ui/LatexLogTabComponent.kt:131-133 | appends exactly the message to the list and changes nothing else |
| NonMatchingIf.Insert | src/nl/hannahsten/texifyidea/inspections/latex/LatexNonMatchingIfInspection.kt:35 | insertion keeps the multiset of commands plus the new one |
| NonMatchingIf.InsertSorted | src/nl/hannahsten/texifyidea/inspections/latex/LatexNonMatchingIfInspection.kt:35 | inserting into an offset-sorted sequence keeps it sorted |
| NonMatchingIf.SortByOffset | src/nl/hannahsten/texifyidea/inspections/latex/LatexNonMatchingIfInspection.kt:35 | the commands are processed in ascending offset order, as a permutation of the file's commands |
| NonMatchingIf.InspectFile | src/nl/hannahsten/texifyidea/inspections/latex/LatexNonMatchingIfInspection.kt:30-74 | the loop over the sorted commands and the drain of the stack produce exactly `Inspect` |
| NonMatchingIf.ScanStepCases | src/nl/hannahsten/texifyidea/inspections/latex/LatexNonMatchingIfInspection.kt:37-57 | `ScanStep`, one loop iteration: an end-if with an empty stack adds one error on that command and keeps the stack; an end-if with a non-empty stack pops and adds nothing; an end-if is never pushed; another command is pushed iff it matches the if pattern, is not ignored and does not follow `\newif`, and otherwise changes nothing |
| NonMatchingIf.ScanCounts | src/nl/hannahsten/texifyidea/inspections/latex/LatexNonMatchingIfInspection.kt:36-58 | `Scan`, the whole loop: #open ifs left + #end-ifs = #ifs pushed + #errors, i.e. #warnings = #pushed - #popped |
| NonMatchingIf.ScanSkipsNonOpeners | src/nl/hannahsten/texifyidea/inspections/latex/LatexNonMatchingIfInspection.kt:55 | `OpensIf`: a command that is no end-if and fails the if pattern, is ignored, or follows `\newif` does not open an if and leaves the scan unchanged |
| NonMatchingIf.ScanErrorsAreEndIfs | src/nl/hannahsten/texifyidea/inspections/latex/LatexNonMatchingIfInspection.kt:38-51 | every error is a GENERIC_ERROR `No matching \if-command found` on an end-if of the input |
| NonMatchingIf.ScanStackHoldsOpeners | src/nl/hannahsten/texifyidea/inspections/latex/LatexNonMatchingIfInspection.kt:53-56 | every stacked command is an opening `\if` of the input and none is an end-if |
| NonMatchingIf.ScanStackNewestFirst | src/nl/hannahsten/texifyidea/inspections/latex/LatexNonMatchingIfInspection.kt:53-56 | over strictly ascending offsets, the stack holds the most recently opened `\if` first |
| NonMatchingIf.ScanErrorFree | src/nl/hannahsten/texifyidea/inspections/latex/LatexNonMatchingIfInspection.kt:36-58 | no error is reported iff no prefix closes more ifs than it opens; then the stack size is the nesting depth |
| NonMatchingIf.ReportsNothingIffNested | src/nl/hannahsten/texifyidea/inspections/latex/LatexNonMatchingIfInspection.kt:30-74 | `Inspect`, the inspection's report, is empty iff the sorted commands are properly nested |
| NonMatchingIf.InspectLayout | src/nl/hannahsten/texifyidea/inspections/latex/LatexNonMatchingIfInspection.kt:61-71 | the report lists the errors first, then one WARNING `If statement should probably be closed with \fi` per open if, in stack order; #warnings = #pushed - #popped |
| LatexCompiler.AllFormatsListed | src/nl/hannahsten/texifyidea/run/compiler/latex/LatexCompiler.kt:58-65 | `values()` lists all six formats |
| LatexCompiler.FirstNamed | src/nl/hannahsten/texifyidea/run/compiler/latex/LatexCompiler.kt:70-72 | `firstOrNull` returns a listed format whose name equals the argument ignoring case, or null only when no listed name does |
| LatexCompiler.ByNameIgnoreCase | src/nl/hannahsten/texifyidea/run/compiler/latex/LatexCompiler.kt:69-73 | null, or a name matching no format, gives PDF; otherwise the result's name equals the argument ignoring case |
| LatexCompiler.EqualsIgnoreCaseSymmetric | src/nl/hannahsten/texifyidea/run/compiler/latex/LatexCompiler.kt:71 | `EqualsIgnoreCase`, i.e. `equals(ignoreCase = true)`: reflexive and symmetric, and a null name equals nothing |
| LatexCompiler.CapitalsMatchDistinctly | src/nl/hannahsten/texifyidea/run/compiler/latex/LatexCompiler.kt:71 | under equalsIgnoreCase a character equals at most one ASCII capital |
| LatexCompiler.NamesMatchDistinctly | src/nl/hannahsten/texifyidea/run/compiler/latex/LatexCompiler.kt:58-65 | no string equals two format names ignoring case |
| LatexCompiler.ByNameIgnoreCaseFinds | src/nl/hannahsten/texifyidea/run/compiler/latex/LatexCompiler.kt:69-73 | any string equal to a format's name ignoring case finds that format |
| LatexCompiler.AnyLetterCaseFindsFormat | src/nl/hannahsten/texifyidea/run/compiler/latex/LatexCompiler.kt:69-73 | each of DEFAULT, PDF, DVI, HTML, XDV, AUX is found under its name in any letter case |
| LatexCompiler.ByNameIgnoreCaseOnlyForName | src/nl/hannahsten/texifyidea/run/compiler/latex/LatexCompiler.kt:69-73 | a result other than PDF is returned only for that format's own name; PDF comes back only for "pdf" in some case or for a name matching nothing |
| LatexCompiler.CustomCompilerDefaults | src/nl/hannahsten/texifyidea/run/compiler/latex/LatexCompiler.kt:21-41 | a custom compiler has supportsUnicode, includesBibtex, includesMakeindex and handlesNumberOfCompiles false, and output formats [PDF, DVI] |
| LatexCompiler.FromStringCustom | src/nl/hannahsten/texifyidea/run/compiler/latex/LatexCompiler.kt:50-52 | a string not in the supported-compiler table becomes a custom compiler with that path, and toString gives the string back |
| LatexCompiler.ConverterStringRoundTrip | src/nl/hannahsten/texifyidea/run/compiler/latex/LatexCompiler.kt:50-52 | `ConverterFromString`: with a well-formed table, toString(fromString(s)) == s for every s |
| LatexCompiler.ConverterCompilerRoundTrip | src/nl/hannahsten/texifyidea/run/compiler/latex/LatexCompiler.kt:45-48 | `ConverterToString`: a registered supported compiler, or a custom one whose path no supported compiler claims, survives fromString(toString(c)) |
| LatexCompiler.GetCustomCommand | src/nl/hannahsten/texifyidea/run/compiler/latex/LatexCompiler.kt:82-96 | the command is [] when the main file does not resolve; otherwise it is [executablePath] + parse(arguments) + [main file name], with no arguments when they are null |

## Left out

- The Swing and IDE side of the log tab (`src/nl/hannahsten/texifyidea/run/latex/ui/LatexLogTabComponent.kt:25-52`): the panel, list, scroll pane, tab title, toolbar getters and `dispose`. The listener registration at line 33 is left out too. The list model is a `seq<string>` field of the listener.
- `processTerminated`, `processWillTerminate` and `startNotified` are empty and are not modelled. No end-of-stream flush exists, and none is added.
- `ProcessEvent` and the output-type key: only the event text and whether the type is a process output type are modelled.
- What the IDE does with the exception from `substringEnd` is not modelled. The model stops the call with `SubstringEndOutOfRange`. A run continues with the next event from the state the failed call left.
- LogPatterns.SubstringEnd: the helper `substringEnd` is not part of this model. It is modelled as dropping the last n characters (code points), defined only when n is at most the length. Kotlin drops n UTF-16 units, and n is the current line's length in UTF-16 units. The two agree, on failure and on the result, whenever the dropped part is exactly the current line. That holds for the warning candidate, and for the error group when the line does not end in U+0085, U+2028 or U+2029. When it does end in one of those, the match stops before that terminator, and Kotlin also drops one UTF-16 unit of the character just before the line. The two then differ exactly when that character lies above U+FFFF: Kotlin cuts its surrogate pair in half, which a string of characters cannot represent.
- `CircularFifoBuffer` is an Apache Commons class. Its ring-buffer implementation is not modelled; the window is its contents as a sequence.
- The Java regular-expression engine is replaced by the explicit matcher. The matcher covers `.` (no line terminators), `\d` (ASCII digits) and `$` (before a final terminator).
- `LatexLogMessageType` is not modelled. The source never uses it, and the log holds plain strings.
- Listener calls are modelled as strictly sequential. Threading is left out.
- LatexCompiler.ToUpperCase: Java's full Unicode case mapping is not modelled. Only ASCII letters and the four characters whose case mapping is an ASCII letter (U+0130, U+0131, U+017F, U+212A) are modelled. The format names are ASCII, so the lookup does not depend on the rest.
- LatexCompiler.ToLowerCase: same restriction as ToUpperCase.
- NonMatchingIf.SortByOffset: the model sorts stably, but stability is not proved.
- NonMatchingIf.ScanStackNewestFirst: assumes strictly increasing offsets, because two commands of a file never start at the same offset.
- `CommandMagic.endIfs`, `CommandMagic.ignoredIfs` and `PatternMagic.ifCommand` are not part of this model. They are parameters (`Magic`).
- `previousCommand()` is not part of this model. Each command record carries the name of its previous command.
- The quick fix and `isOnTheFly` arguments of `createProblemDescriptor` are not modelled: `Descriptor` has no field for them.
- `CompilerMagic.latexCompilerByExecutableName` is not part of this model. It is a map parameter.
- The capability overrides of the supported compilers are not part of this model. Each supported compiler carries them as data.
- `ParametersListUtil.parse` is a function parameter.
- `mainFile.resolve()` is modelled as an optional file.
- `SupportedLatexCompiler.getCommand`, `toPath`, `createDockerCommand` and `createCommand` (`src/nl/hannahsten/texifyidea/run/compiler/latex/LatexCompiler.kt:105-251`) are left out. They run shell commands, query the project's roots and the file system, and create output directories.
- The other files of the repository are not modelled: the BibTeX settings editor, the index utilities, environment completion, the generated PSI parameter class, the underscore-inspection test, the Evince startup listener and the file-type constants. They are UI, index or IDE glue.

=== FILE: if_inspection.dfy ===
/**
 * The "open if-then-else control sequence" inspection
 * (LatexNonMatchingIfInspection): the commands of a file, sorted by their
 * offset, are scanned with a stack of open \if commands; an end-if with no
 * open \if is an error, and every \if still open at the end gets a warning.
 */
module NonMatchingIf {
  import opened Wrappers

  /** A command of the file: its name, the name of the command before it (if any), and its offset in the file. */
  datatype Command = Command(name: string, previousCommandName: Option<string>, textOffset: int)

  datatype HighlightType = GenericError | Warning

  /** A problem descriptor: the command it marks, its description and its highlight type. */
  datatype Descriptor = Descriptor(element: Command, description: string, highlightType: HighlightType)

  const NoMatchingIf: string := "No matching \\if-command found"
  const ShouldBeClosed: string := "If statement should probably be closed with \\fi"
  const NewIf: string := "\\newif"

  /**
   * The command tables the inspection consults (CommandMagic.endIfs,
   * CommandMagic.ignoredIfs and the PatternMagic.ifCommand pattern), which
   * are not part of this model and are given as parameters.
   */
  datatype Magic = Magic(endIfs: set<string>, ignoredIfs: set<string>, ifCommand: string -> bool)

  /** The test for an \if that opens a conditional, applied to commands that are no end-if. */
  predicate OpensIf(magic: Magic, c: Command) {
    magic.ifCommand(c.name) && c.name !in magic.ignoredIfs && c.previousCommandName != Some(NewIf)
  }

  // ---------------------------------------------------------------------
  // Sorting by offset (`sortedBy { it.textOffset }`, a stable sort)
  // ---------------------------------------------------------------------

  predicate SortedByOffset(cs: seq<Command>) {
    forall i, j :: 0 <= i < j < |cs| ==> cs[i].textOffset <= cs[j].textOffset
  }

  /** Insert c behind every command whose offset is not larger. */
  function Insert(c: Command, sorted: seq<Command>): (r: seq<Command>)
    ensures multiset(r) == multiset(sorted) + multiset{c}
  {
    if sorted == [] || c.textOffset < sorted[0].textOffset then [c] + sorted
    else
      assert sorted == [sorted[0]] + sorted[1..];
      [sorted[0]] + Insert(c, sorted[1..])
  }

  /** Inserting into a sorted sequence keeps it sorted. */
  lemma {:induction false} InsertSorted(c: Command, sorted: seq<Command>)
    requires SortedByOffset(sorted)
    ensures SortedByOffset(Insert(c, sorted))
  {
    if sorted != [] && c.textOffset >= sorted[0].textOffset {
      var rest := Insert(c, sorted[1..]);
      InsertSorted(c, sorted[1..]);
      forall k | 0 <= k < |rest| ensures sorted[0].textOffset <= rest[k].textOffset {
        assert rest[k] in multiset(rest);
        assert rest[k] == c || rest[k] in multiset(sorted[1..]);
        if rest[k] != c {
          var m :| 0 <= m < |sorted[1..]| && sorted[1..][m] == rest[k];
          assert sorted[m + 1] == rest[k];
        }
      }
    }
  }

  /** The commands in ascending offset order, a permutation of the input. */
  function SortByOffset(cs: seq<Command>): (r: seq<Command>)
    ensures SortedByOffset(r)
    ensures multiset(r) == multiset(cs)
  {
    if cs == [] then []
    else
      assert cs == cs[..|cs| - 1] + [cs[|cs| - 1]];
      InsertSorted(cs[|cs| - 1], SortByOffset(cs[..|cs| - 1]));
      Insert(cs[|cs| - 1], SortByOffset(cs[..|cs| - 1]))
  }

  // ---------------------------------------------------------------------
  // The scan
  // ---------------------------------------------------------------------

  /** The descriptors found so far and the stack of open \ifs, most recently opened first. */
  datatype ScanState = ScanState(descriptors: seq<Descriptor>, stack: seq<Command>)

  /** One iteration of the loop over the sorted commands. */
  function ScanStep(magic: Magic, st: ScanState, c: Command): ScanState {
    if c.name in magic.endIfs then
      if st.stack == [] then st.(descriptors := st.descriptors + [Descriptor(c, NoMatchingIf, GenericError)])
      else st.(stack := st.stack[1..])
    else if OpensIf(magic, c) then st.(stack := [c] + st.stack)
    else st
  }

  /** The loop over the commands, in order. */
  function Scan(magic: Magic, cs: seq<Command>): ScanState {
    if cs == [] then ScanState([], [])
    else ScanStep(magic, Scan(magic, cs[..|cs| - 1]), cs[|cs| - 1])
  }

  function UnclosedWarning(c: Command): Descriptor {
    Descriptor(c, ShouldBeClosed, Warning)
  }

  /** One warning per open \if, in stack order. */
  function UnclosedWarnings(stack: seq<Command>): seq<Descriptor> {
    seq(|stack|, k requires 0 <= k < |stack| => UnclosedWarning(stack[k]))
  }

  /** The descriptors the inspection reports for a file's commands. */
  function Inspect(magic: Magic, commands: seq<Command>): seq<Descriptor> {
    var st := Scan(magic, SortByOffset(commands));
    st.descriptors + UnclosedWarnings(st.stack)
  }

  /** `inspectFile`: the sort, the stack scan, and the warnings for the \ifs left open. */
  method InspectFile(magic: Magic, commands: seq<Command>) returns (descriptors: seq<Descriptor>)
    ensures descriptors == Inspect(magic, commands)
  {
    descriptors := [];
    var stack: seq<Command> := [];
    var sorted := SortByOffset(commands);
    for i := 0 to |sorted|
      invariant ScanState(descriptors, stack) == Scan(magic, sorted[..i])
    {
      assert sorted[..i + 1][..i] == sorted[..i];
      var command := sorted[i];
      if command.name in magic.endIfs {
        if stack == [] {
          descriptors := descriptors + [Descriptor(command, NoMatchingIf, GenericError)];
          continue;
        }
        stack := stack[1..];
      } else if OpensIf(magic, command) {
        stack := [command] + stack;
      }
    }
    assert sorted[..|sorted|] == sorted;
    ghost var errors := descriptors;
    for i := 0 to |stack|
      invariant descriptors == errors + UnclosedWarnings(stack[..i])
    {
      descriptors := descriptors + [UnclosedWarning(stack[i])];
    }
    assert stack[..|stack|] == stack;
  }

  // ---------------------------------------------------------------------
  // Properties
  // ---------------------------------------------------------------------

  /**
   * One step: an end-if with an empty stack adds exactly one error on that
   * command and leaves the stack alone; an end-if with a non-empty stack
   * pops the most recently opened \if and adds nothing; the end-if test
   * comes first, so an end-if is never pushed; any other command is pushed
   * exactly when it opens an \if, and otherwise changes nothing.
   */
  lemma ScanStepCases(magic: Magic, st: ScanState, c: Command)
    ensures var r := ScanStep(magic, st, c);
      (c.name in magic.endIfs && st.stack == [] ==>
        r.stack == [] && r.descriptors == st.descriptors + [Descriptor(c, NoMatchingIf, GenericError)]) &&
      (c.name in magic.endIfs && st.stack != [] ==>
        r.stack == st.stack[1..] && r.descriptors == st.descriptors) &&
      (c.name !in magic.endIfs && OpensIf(magic, c) ==>
        r.stack == [c] + st.stack && r.descriptors == st.descriptors) &&
      (c.name !in magic.endIfs && !OpensIf(magic, c) ==> r == st)
  {
  }

  /**
   * A command that is no end-if and does not open an \if leaves the scan
   * as it is: one that does not match the if pattern, an ignored \if, or
   * one declared by the \newif before it.
   */
  lemma ScanSkipsNonOpeners(magic: Magic, st: ScanState, c: Command)
    requires c.name !in magic.endIfs
    requires !magic.ifCommand(c.name) || c.name in magic.ignoredIfs || c.previousCommandName == Some(NewIf)
    ensures !OpensIf(magic, c) && ScanStep(magic, st, c) == st
  {
  }

  /** Number of end-ifs among the commands. */
  function EndIfCount(magic: Magic, cs: seq<Command>): nat {
    if cs == [] then 0
    else EndIfCount(magic, cs[..|cs| - 1]) + (if cs[|cs| - 1].name in magic.endIfs then 1 else 0)
  }

  /** Number of commands that open an \if. */
  function OpenerCount(magic: Magic, cs: seq<Command>): nat {
    if cs == [] then 0
    else
      var c := cs[|cs| - 1];
      OpenerCount(magic, cs[..|cs| - 1]) + (if c.name !in magic.endIfs && OpensIf(magic, c) then 1 else 0)
  }

  /** Nesting depth after the commands: opened \ifs minus end-ifs. */
  function Depth(magic: Magic, cs: seq<Command>): int {
    OpenerCount(magic, cs) - EndIfCount(magic, cs)
  }

  /** No prefix closes more \ifs than it opens. */
  predicate NeverBelowZero(magic: Magic, cs: seq<Command>) {
    forall k :: 0 <= k <= |cs| ==> Depth(magic, cs[..k]) >= 0
  }

  /**
   * Counting: the open \ifs left plus the end-ifs seen equal the \ifs opened
   * plus the errors, i.e. #warnings = #pushed - #popped, where the pops are
   * the end-ifs that did not meet an empty stack.
   */
  lemma {:induction false} ScanCounts(magic: Magic, cs: seq<Command>)
    ensures var st := Scan(magic, cs);
      |st.stack| + EndIfCount(magic, cs) == OpenerCount(magic, cs) + |st.descriptors|
  {
    if cs != [] {
      ScanCounts(magic, cs[..|cs| - 1]);
    }
  }

  /** Every error marks an end-if of the input, with the "no matching \\if" message and the error highlight. */
  lemma {:induction false} ScanErrorsAreEndIfs(magic: Magic, cs: seq<Command>)
    ensures forall d :: d in Scan(magic, cs).descriptors ==>
      d.element in cs && d.element.name in magic.endIfs &&
      d.description == NoMatchingIf && d.highlightType == GenericError
  {
    if cs != [] {
      var prefix := cs[..|cs| - 1];
      ScanErrorsAreEndIfs(magic, prefix);
      forall d | d in Scan(magic, prefix).descriptors ensures d.element in cs {
        assert d.element in prefix;
      }
    }
  }

  /** Every command on the stack is an \if of the input that opens; none is an end-if. */
  lemma {:induction false} ScanStackHoldsOpeners(magic: Magic, cs: seq<Command>)
    ensures forall c :: c in Scan(magic, cs).stack ==>
      c in cs && c.name !in magic.endIfs && OpensIf(magic, c)
  {
    if cs != [] {
      var prefix := cs[..|cs| - 1];
      ScanStackHoldsOpeners(magic, prefix);
      var st := Scan(magic, prefix);
      forall c | c in st.stack ensures c in cs {
        assert c in prefix;
      }
      if st.stack != [] {
        assert forall c :: c in st.stack[1..] ==> c in st.stack;
      }
    }
  }

  /** Offsets strictly decrease along the sequence. */
  predicate NewestFirst(s: seq<Command>) {
    forall i, j :: 0 <= i < j < |s| ==> s[j].textOffset < s[i].textOffset
  }

  /**
   * Over commands in strictly ascending offset order, the stack holds the
   * open \ifs most recently opened first: their offsets strictly decrease.
   */
  lemma {:induction false} ScanStackNewestFirst(magic: Magic, cs: seq<Command>)
    requires forall i, j :: 0 <= i < j < |cs| ==> cs[i].textOffset < cs[j].textOffset
    ensures NewestFirst(Scan(magic, cs).stack)
  {
    if cs != [] {
      var prefix := cs[..|cs| - 1];
      var c := cs[|cs| - 1];
      ScanStackNewestFirst(magic, prefix);
      ScanStackHoldsOpeners(magic, prefix);
      var s := Scan(magic, prefix).stack;
      forall x | x in s ensures x.textOffset < c.textOffset {
        var k :| 0 <= k < |prefix| && prefix[k] == x;
        assert cs[k] == x;
      }
      ScanStepCases(magic, Scan(magic, prefix), c);
      if c.name !in magic.endIfs && OpensIf(magic, c) {
        PushKeepsNewestFirst(c, s);
      } else if c.name in magic.endIfs && s != [] {
        assert NewestFirst(s[1..]) by {
          forall i, j | 0 <= i < j < |s[1..]| ensures s[1..][j].textOffset < s[1..][i].textOffset {
            assert s[1..][j] == s[j + 1] && s[1..][i] == s[i + 1];
          }
        }
      }
    }
  }

  /** Pushing a command newer than every stacked one keeps the stack newest first. */
  lemma PushKeepsNewestFirst(c: Command, s: seq<Command>)
    requires NewestFirst(s)
    requires forall x :: x in s ==> x.textOffset < c.textOffset
    ensures NewestFirst([c] + s)
  {
    var r := [c] + s;
    forall i, j | 0 <= i < j < |r| ensures r[j].textOffset < r[i].textOffset {
      assert r[j] == s[j - 1] && r[j] in s;
      if i > 0 {
        assert r[i] == s[i - 1];
      }
    }
  }

  /**
   * No error is reported exactly when no prefix closes more \ifs than it
   * opened; and then the stack holds one entry per level of depth.
   */
  lemma {:induction false} ScanErrorFree(magic: Magic, cs: seq<Command>)
    ensures Scan(magic, cs).descriptors == [] <==> NeverBelowZero(magic, cs)
    ensures Scan(magic, cs).descriptors == [] ==> |Scan(magic, cs).stack| == Depth(magic, cs)
  {
    assert cs[..|cs|] == cs;
    if cs == [] {
      assert NeverBelowZero(magic, cs) by {
        forall k | 0 <= k <= |cs| ensures Depth(magic, cs[..k]) >= 0 {
          assert cs[..k] == [];
        }
      }
    } else {
      var prefix := cs[..|cs| - 1];
      ScanErrorFree(magic, prefix);
      assert forall k :: 0 <= k <= |prefix| ==> prefix[..k] == cs[..k];
      assert NeverBelowZero(magic, cs) <==> NeverBelowZero(magic, prefix) && Depth(magic, cs) >= 0 by {
        if NeverBelowZero(magic, prefix) && Depth(magic, cs) >= 0 {
          forall k | 0 <= k <= |cs| ensures Depth(magic, cs[..k]) >= 0 {
            if k < |cs| {
              assert cs[..k] == prefix[..k];
            }
          }
        }
        if NeverBelowZero(magic, cs) {
          forall k | 0 <= k <= |prefix| ensures Depth(magic, prefix[..k]) >= 0 {
            assert prefix[..k] == cs[..k];
          }
          assert Depth(magic, cs[..|cs|]) >= 0;
        }
      }
    }
  }

  /**
   * The inspection reports nothing exactly when the sorted commands are
   * properly nested: no prefix closes more \ifs than it opened, and every
   * \if is closed at the end.
   */
  lemma ReportsNothingIffNested(magic: Magic, commands: seq<Command>)
    ensures var sorted := SortByOffset(commands);
      Inspect(magic, commands) == [] <==> NeverBelowZero(magic, sorted) && Depth(magic, sorted) == 0
  {
    var sorted := SortByOffset(commands);
    ScanErrorFree(magic, sorted);
    ScanCounts(magic, sorted);
  }

  /**
   * The report: first the errors, one per end-if met with an empty stack,
   * then one warning per \if left open, most recently opened first; there
   * are as many warnings as \ifs opened minus end-ifs that popped one.
   */
  lemma InspectLayout(magic: Magic, commands: seq<Command>)
    ensures var sorted := SortByOffset(commands);
      var st := Scan(magic, sorted);
      var r := Inspect(magic, commands);
      |r| == |st.descriptors| + |st.stack| &&
      |st.stack| == OpenerCount(magic, sorted) - (EndIfCount(magic, sorted) - |st.descriptors|) &&
      (forall k :: 0 <= k < |st.descriptors| ==>
         r[k].highlightType == GenericError && r[k].description == NoMatchingIf &&
         r[k].element.name in magic.endIfs) &&
      (forall k :: |st.descriptors| <= k < |r| ==>
         r[k] == UnclosedWarning(st.stack[k - |st.descriptors|]))
  {
    var sorted := SortByOffset(commands);
    ScanCounts(magic, sorted);
    ScanErrorsAreEndIfs(magic, sorted);
    var st := Scan(magic, sorted);
    WarningsAfter(st.descriptors, st.stack);
    forall k | 0 <= k < |st.descriptors|
      ensures st.descriptors[k].highlightType == GenericError && st.descriptors[k].description == NoMatchingIf
      ensures st.descriptors[k].element.name in magic.endIfs
    {
      assert st.descriptors[k] in st.descriptors;
    }
  }

  /** The report is the errors followed by one warning per stacked command. */
  lemma WarningsAfter(errors: seq<Descriptor>, stack: seq<Command>)
    ensures var r := errors + UnclosedWarnings(stack);
      |r| == |errors| + |stack| &&
      (forall k :: 0 <= k < |errors| ==> r[k] == errors[k]) &&
      (forall k :: |errors| <= k < |r| ==> r[k] == UnclosedWarning(stack[k - |errors|]))
  {
    var warnings := UnclosedWarnings(stack);
    assert |warnings| == |stack|;
    forall k | |errors| <= k < |errors| + |stack|
      ensures (errors + warnings)[k] == UnclosedWarning(stack[k - |errors|])
    {
      assert (errors + warnings)[k] == warnings[k - |errors|];
    }
  }
}

=== FILE: latex_compiler.dfy ===
/**
 * Naming and conversion helpers of the LaTeX compilers: the output formats
 * and their case-insensitive lookup, the converter that stores a compiler
 * as a string, the capability defaults, and the command line of a custom
 * compiler.
 */
module LatexCompiler {
  import opened Wrappers

  datatype OutputFormat = Default | Pdf | Dvi | Html | Xdv | Aux

  /** `OutputFormat.values()`, in declaration order. */
  const OutputFormats: seq<OutputFormat> := [Default, Pdf, Dvi, Html, Xdv, Aux]

  /** The enum constant's `name`. */
  function Name(f: OutputFormat): string {
    match f
    case Default => "DEFAULT"
    case Pdf => "PDF"
    case Dvi => "DVI"
    case Html => "HTML"
    case Xdv => "XDV"
    case Aux => "AUX"
  }

  // ---------------------------------------------------------------------
  // Case-insensitive comparison, as Java's String.equalsIgnoreCase does it
  // ---------------------------------------------------------------------

  predicate IsUpperAscii(c: char) {
    'A' <= c <= 'Z'
  }

  /** Upper case of a character, for the characters whose upper case is an ASCII letter. */
  function ToUpperCase(c: char): char {
    if 'a' <= c <= 'z' then (c as int - 32) as char
    else if c == '\U{0131}' then 'I'
    else if c == '\U{017F}' then 'S'
    else c
  }

  /** Lower case of a character, for the characters whose lower case is an ASCII letter. */
  function ToLowerCase(c: char): char {
    if 'A' <= c <= 'Z' then (c as int + 32) as char
    else if c == '\U{0130}' then 'i'
    else if c == '\U{212A}' then 'k'
    else c
  }

  /** Two characters are equal ignoring case: equal, equal in upper case, or equal in the lower case of their upper case. */
  predicate CharEqualsIgnoreCase(a: char, b: char) {
    a == b || ToUpperCase(a) == ToUpperCase(b) || ToLowerCase(ToUpperCase(a)) == ToLowerCase(ToUpperCase(b))
  }

  /** `s.equals(other, ignoreCase = true)`; a null `other` is never equal. */
  predicate EqualsIgnoreCase(s: string, other: Option<string>) {
    other.Some? && |s| == |other.value| &&
    forall k :: 0 <= k < |s| ==> CharEqualsIgnoreCase(s[k], other.value[k])
  }

  /** The first format from the list whose name equals `name` ignoring case. */
  function FirstNamed(formats: seq<OutputFormat>, name: Option<string>): (r: Option<OutputFormat>)
    ensures r.Some? ==> r.value in formats && EqualsIgnoreCase(Name(r.value), name)
    ensures r.None? ==> forall f :: f in formats ==> !EqualsIgnoreCase(Name(f), name)
  {
    if formats == [] then None
    else if EqualsIgnoreCase(Name(formats[0]), name) then Some(formats[0])
    else FirstNamed(formats[1..], name)
  }

  /** `OutputFormat.byNameIgnoreCase(name)`: the format so named in any letter case, PDF otherwise. */
  function ByNameIgnoreCase(name: Option<string>): (r: OutputFormat)
    ensures name.None? ==> r == Pdf
    ensures (forall f :: !EqualsIgnoreCase(Name(f), name)) ==> r == Pdf
    ensures (exists f :: EqualsIgnoreCase(Name(f), name)) ==> EqualsIgnoreCase(Name(r), name)
  {
    AllFormatsListed();
    match FirstNamed(OutputFormats, name)
    case Some(f) => f
    case None => Pdf
  }

  /** `values()` lists every format. */
  lemma AllFormatsListed()
    ensures forall f :: f in OutputFormats
  {
    forall f: OutputFormat ensures f in OutputFormats {
      match f
      case Default => assert OutputFormats[0] == f;
      case Pdf => assert OutputFormats[1] == f;
      case Dvi => assert OutputFormats[2] == f;
      case Html => assert OutputFormats[3] == f;
      case Xdv => assert OutputFormats[4] == f;
      case Aux => assert OutputFormats[5] == f;
    }
  }

  /** Equality ignoring case is reflexive and symmetric, and a null name equals nothing. */
  lemma EqualsIgnoreCaseSymmetric(s: string, t: string)
    ensures EqualsIgnoreCase(s, Some(s))
    ensures EqualsIgnoreCase(s, Some(t)) <==> EqualsIgnoreCase(t, Some(s))
    ensures !EqualsIgnoreCase(s, None)
  {
  }

  /** An ASCII capital matches a character ignoring case for at most one capital. */
  lemma CapitalsMatchDistinctly(x: char, y: char, c: char)
    requires IsUpperAscii(x) && IsUpperAscii(y)
    requires CharEqualsIgnoreCase(x, c) && CharEqualsIgnoreCase(y, c)
    ensures x == y
  {
  }

  /** No two format names are equal ignoring case to the same string. */
  lemma NamesMatchDistinctly(f: OutputFormat, g: OutputFormat, s: string)
    requires EqualsIgnoreCase(Name(f), Some(s)) && EqualsIgnoreCase(Name(g), Some(s))
    ensures f == g
  {
    var nf, ng := Name(f), Name(g);
    assert forall k :: 0 <= k < |nf| ==> IsUpperAscii(nf[k]);
    assert forall k :: 0 <= k < |ng| ==> IsUpperAscii(ng[k]);
    forall k | 0 <= k < |nf| ensures nf[k] == ng[k] {
      CapitalsMatchDistinctly(nf[k], ng[k], s[k]);
    }
    assert nf == ng;
  }

  /** Looking up a format's name in any case, as equalsIgnoreCase sees case, gives that format. */
  lemma ByNameIgnoreCaseFinds(f: OutputFormat, s: string)
    requires EqualsIgnoreCase(Name(f), Some(s))
    ensures ByNameIgnoreCase(Some(s)) == f
  {
    NamesMatchDistinctly(f, ByNameIgnoreCase(Some(s)), s);
  }

  /** s spells n with any of its letters in lower case. */
  predicate InAnyLetterCase(n: string, s: string) {
    |s| == |n| && forall k :: 0 <= k < |n| ==> s[k] == n[k] || s[k] == ToLowerCase(n[k])
  }

  /** Every format is found under its name written in any mix of upper and lower case letters. */
  lemma AnyLetterCaseFindsFormat(f: OutputFormat, s: string)
    requires InAnyLetterCase(Name(f), s)
    ensures ByNameIgnoreCase(Some(s)) == f
  {
    assert EqualsIgnoreCase(Name(f), Some(s));
    ByNameIgnoreCaseFinds(f, s);
  }

  /** A format other than PDF comes back only for its own name, ignoring case. */
  lemma ByNameIgnoreCaseOnlyForName(name: Option<string>)
    ensures ByNameIgnoreCase(name) != Pdf ==> EqualsIgnoreCase(Name(ByNameIgnoreCase(name)), name)
    ensures name.Some? && ByNameIgnoreCase(name) == Pdf ==>
      EqualsIgnoreCase("PDF", name) || forall f :: !EqualsIgnoreCase(Name(f), name)
  {
  }

  // ---------------------------------------------------------------------
  // Compilers, their capabilities, and the converter
  // ---------------------------------------------------------------------

  /** What a compiler supports (the `open val`s of LatexCompiler). */
  datatype Capabilities = Capabilities(
    supportsUnicode: bool,
    includesBibtex: bool,
    includesMakeindex: bool,
    handlesNumberOfCompiles: bool,
    outputFormats: seq<OutputFormat>)

  /** The values a compiler has unless it overrides them. */
  const DefaultCapabilities: Capabilities := Capabilities(false, false, false, false, [Pdf, Dvi])

  /**
   * A supported compiler (the subclasses of SupportedLatexCompiler, whose
   * overrides are given as its capabilities) or a custom one, named by the
   * path of its executable.
   */
  datatype Compiler =
    | Supported(displayName: string, executableName: string, capabilities: Capabilities)
    | Custom(executablePath: string)

  function CapabilitiesOf(c: Compiler): Capabilities {
    match c
    case Supported(_, _, caps) => caps
    case Custom(_) => DefaultCapabilities
  }

  /** A custom compiler keeps every default: no Unicode, bibtex, index or compile-count handling, and PDF and DVI output. */
  lemma CustomCompilerDefaults(path: string)
    ensures var caps := CapabilitiesOf(Custom(path));
      !caps.supportsUnicode && !caps.includesBibtex && !caps.includesMakeindex &&
      !caps.handlesNumberOfCompiles && caps.outputFormats == [Pdf, Dvi]
  {
  }

  /**
   * The table of supported compilers by executable name
   * (CompilerMagic.latexCompilerByExecutableName, which is not part of this
   * model): every entry is a supported compiler registered under its own
   * executable name.
   */
  predicate WellFormedTable(table: map<string, Compiler>) {
    forall exe :: exe in table ==> table[exe].Supported? && table[exe].executableName == exe
  }

  /** `Converter.toString` */
  function ConverterToString(c: Compiler): string {
    match c
    case Supported(_, executableName, _) => executableName
    case Custom(executablePath) => executablePath
  }

  /** `Converter.fromString`: the supported compiler of that executable name, or a custom compiler with that path. */
  function ConverterFromString(table: map<string, Compiler>, value: string): Compiler {
    if value in table then table[value] else Custom(value)
  }

  /** A string no supported compiler claims becomes a custom compiler with that path, which converts back to the string. */
  lemma FromStringCustom(table: map<string, Compiler>, value: string)
    requires value !in table
    ensures ConverterFromString(table, value) == Custom(value)
    ensures ConverterToString(ConverterFromString(table, value)) == value
  {
  }

  /** With a well-formed table every string survives conversion to a compiler and back. */
  lemma ConverterStringRoundTrip(table: map<string, Compiler>, value: string)
    requires WellFormedTable(table)
    ensures ConverterToString(ConverterFromString(table, value)) == value
  {
  }

  /**
   * A compiler survives conversion to a string and back when it is the
   * table's entry for its executable name, or a custom compiler whose path
   * no supported compiler claims.
   */
  lemma ConverterCompilerRoundTrip(table: map<string, Compiler>, c: Compiler)
    requires WellFormedTable(table)
    requires c.Supported? ==> c.executableName in table && table[c.executableName] == c
    requires c.Custom? ==> c.executablePath !in table
    ensures ConverterFromString(table, ConverterToString(c)) == c
  {
  }

  // ---------------------------------------------------------------------
  // The command line of a custom compiler
  // ---------------------------------------------------------------------

  datatype VirtualFile = VirtualFile(name: string, path: string)

  /**
   * The run configuration's options that the command uses: the user's
   * compiler arguments (null when unset) and the main file as it resolves
   * (None when it does not).
   */
  datatype RunOptions = RunOptions(compilerArguments: Option<string>, mainFile: Option<VirtualFile>)

  /**
   * `CustomLatexCompiler.getCommand`: the executable path, the parsed
   * compiler arguments and the main file's name; the empty list when the
   * main file does not resolve. `parse` stands for ParametersListUtil.parse.
   */
  method GetCustomCommand(executablePath: string, options: RunOptions, parse: string -> seq<string>)
    returns (command: seq<string>)
    ensures options.mainFile.None? ==> command == []
    ensures options.mainFile.Some? && options.compilerArguments.None? ==>
      command == [executablePath, options.mainFile.value.name]
    ensures options.mainFile.Some? && options.compilerArguments.Some? ==>
      command == [executablePath] + parse(options.compilerArguments.value) + [options.mainFile.value.name]
  {
    command := [executablePath];
    if options.compilerArguments.Some? {
      var arguments := parse(options.compilerArguments.value);
      for i := 0 to |arguments|
        invariant command == [executablePath] + arguments[..i]
      {
        command := command + [arguments[i]];
      }
      assert arguments[..|arguments|] == arguments;
    }
    if options.mainFile.None? {
      return [];
    }
    command := command + [options.mainFile.value.name];
  }
}

=== FILE: log_listener.dfy ===
/**
 * The log-message extractor of the LaTeX log tab (LatexOutputListener):
 * a sequential state machine fed one line of compiler output at a time.
 * It keeps a window of the two latest lines, detects errors and warnings
 * by looking at the previous line with the current line as lookahead, and
 * reassembles messages that the compiler wrapped at its line width.
 *
 * `Step` is the specification of one `onTextAvailable` call on the
 * listener's fields taken as one value; the class below changes its
 * fields in place, as the listener does, and is proved to follow `Step`.
 */
module LogListener {
  import opened Wrappers
  import opened LogPatterns

  /** The listener's fields: window, isCollectingMessage, currentMessageText, and the list model it appends to. */
  datatype Listener = Listener(
    window: seq<string>,
    collecting: bool,
    currentMessage: Option<string>,
    log: seq<string>)

  /** How a call ends: normally, or with the exception `substringEnd` raises on a too-short message. */
  datatype Outcome = Handled | SubstringEndOutOfRange

  const Initial: Listener := Listener([], false, None, [])

  /** The window never holds more than two lines, and a message is being built whenever one is collected. */
  predicate Invariant(l: Listener) {
    |l.window| <= 2 && (l.collecting ==> l.currentMessage.Some?)
  }

  /** `window.add(line)` on a first-in first-out buffer of capacity two. */
  function AddToWindow(window: seq<string>, line: string): (w: seq<string>)
    ensures 1 <= |w| <= 2 && w[|w| - 1] == line
  {
    if |window| < 2 then window + [line] else [window[|window| - 1], line]
  }

  /** The buffer keeps the latest lines added, at most two of them, oldest first. */
  lemma AddToWindowKeepsLatest(window: seq<string>, line: string)
    ensures var all := window + [line];
      AddToWindow(window, line) == all[|all| - (if |all| < 2 then |all| else 2)..]
  {
  }

  /** `window.joinToString(separator = "")` */
  function Join(window: seq<string>): string {
    if window == [] then "" else Join(window[..|window| - 1]) + window[|window| - 1]
  }

  /** `collectMessageLine`: append the line; a line shorter than the width ends the message and logs it. */
  function CollectStep(l: Listener, line: string, width: int): (r: Listener)
    requires l.currentMessage.Some?
    ensures r.window == l.window && r.currentMessage.Some?
    ensures r.collecting ==> l.collecting
    ensures l.log <= r.log && |r.log| <= |l.log| + 1
  {
    var buffer := l.currentMessage.value + line;
    if Utf16Length(line) < width then l.(collecting := false, currentMessage := Some(buffer), log := l.log + [buffer])
    else l.(currentMessage := Some(buffer))
  }

  /** The tail shared by the error and the warning branch: start collecting when the previous text fills the width, otherwise log. */
  function LogOrCollect(l: Listener, message: string, priorLength: int, line: string, width: int): (r: Listener)
    ensures r.window == l.window
    ensures Invariant(l) ==> Invariant(r)
    ensures l.log <= r.log && |r.log| <= |l.log| + 1
  {
    if priorLength >= width then CollectStep(l.(currentMessage := Some(message), collecting := true), line, width)
    else l.(log := l.log + [message])
  }

  /** The error branch; None when `substringEnd` fails. */
  function ErrorCheck(l: Listener, text: string, line: string, width: int): (r: Option<Listener>)
    requires |line| <= |text|
    ensures r.Some? ==> r.value.window == l.window
    ensures r.Some? && Invariant(l) ==> Invariant(r.value)
    ensures r.Some? ==> l.log <= r.value.log && |r.value.log| <= |l.log| + 1
  {
    match MatchError(text)
    case None => Some(l)
    case Some(group) =>
      match SubstringEnd(group, |line|)
      case None => None
      case Some(message) => Some(LogOrCollect(l, message, Utf16Length(text[..|text| - |line|]), line, width))
  }

  /** The warning branch. */
  function WarningCheck(l: Listener, text: string, line: string, width: int): (r: Listener)
    requires |line| <= |text|
    ensures r.window == l.window
    ensures Invariant(l) ==> Invariant(r)
    ensures l.log <= r.log && |r.log| <= |l.log| + 1
  {
    if StartsWithWarning(text) then
      var message := text[..|text| - |line|];
      LogOrCollect(l, message, Utf16Length(message), line, width)
    else l
  }

  /** One `onTextAvailable(text, outputType)` call; `isProcessOutput` says whether the output type is a process output type. */
  function Step(l: Listener, text: string, isProcessOutput: bool, width: int): (r: (Listener, Outcome))
    requires Invariant(l)
    ensures Invariant(r.0)
  {
    if !isProcessOutput then (l, Handled)
    else
      var line := TrimLineEnd(text);
      var l1 := l.(window := AddToWindow(l.window, line));
      if l.collecting then (CollectStep(l1, line, width), Handled)
      else if l1.window[0] == "" then (l1, Handled)
      else
        var joined := Join(l1.window);
        match ErrorCheck(l1, joined, line, width)
        case None => (l1, SubstringEndOutOfRange)
        case Some(l2) => (WarningCheck(l2, joined, line, width), Handled)
  }

  /** The listener fed a sequence of (text, isProcessOutput) events in order. */
  function Run(l: Listener, events: seq<(string, bool)>, width: int): (r: Listener)
    requires Invariant(l)
    ensures Invariant(r)
    decreases |events|
  {
    if events == [] then l
    else Run(Step(l, events[0].0, events[0].1, width).0, events[1..], width)
  }

  // ---------------------------------------------------------------------
  // Properties of one call
  // ---------------------------------------------------------------------

  /** An event whose output type is not a process output type changes nothing. */
  lemma StepIgnoresOtherOutput(l: Listener, text: string, width: int)
    requires Invariant(l)
    ensures Step(l, text, false, width) == (l, Handled)
  {
  }

  /** The window text is the window's lines joined without separator; with two lines, the older one comes first. */
  lemma JoinWindow(w: seq<string>)
    requires 1 <= |w| <= 2
    ensures Join(w) == Join(w[..|w| - 1]) + w[|w| - 1]
    ensures |w| == 1 ==> Join(w) == w[0] && Join(w[..|w| - 1]) == ""
    ensures |w| == 2 ==> Join(w) == w[0] + w[1] && Join(w[..|w| - 1]) == w[0]
  {
    assert w[..|w| - 1][..|w[..|w| - 1]|] == w[..|w| - 1];
    if |w| == 2 {
      assert w[..1][..0] == [];
    }
  }

  /**
   * After an accepted event the window holds one or two lines, its newest
   * line is the event text without trailing newlines and carriage returns,
   * and its older line is the previously newest one.
   */
  lemma StepUpdatesWindow(l: Listener, text: string, width: int)
    requires Invariant(l)
    ensures var w := Step(l, text, true, width).0.window;
      1 <= |w| <= 2 && w[|w| - 1] == TrimLineEnd(text) &&
      (l.window == [] ==> w == [TrimLineEnd(text)]) &&
      (l.window != [] ==> w == [l.window[|l.window| - 1], TrimLineEnd(text)])
  {
    var line := TrimLineEnd(text);
    var l1 := l.(window := AddToWindow(l.window, line));
    if l.collecting {
      assert Step(l, text, true, width).0 == CollectStep(l1, line, width);
    } else if l1.window[0] != "" {
      var joined := Join(l1.window);
      match ErrorCheck(l1, joined, line, width)
      case None =>
      case Some(l2) =>
        assert Step(l, text, true, width).0 == WarningCheck(l2, joined, line, width);
    }
  }

  /**
   * While a message is being collected no detection runs: the line is
   * appended to the message, and a line shorter than the width ends the
   * message and logs exactly the collected text.
   */
  lemma StepWhileCollecting(l: Listener, text: string, width: int)
    requires Invariant(l) && l.collecting
    ensures var line := TrimLineEnd(text);
      var buffer := l.currentMessage.value + line;
      var (r, outcome) := Step(l, text, true, width);
      outcome == Handled &&
      r.currentMessage == Some(buffer) &&
      (Utf16Length(line) < width ==> !r.collecting && r.log == l.log + [buffer]) &&
      (Utf16Length(line) >= width ==> r.collecting && r.log == l.log)
  {
  }

  /**
   * When idle and the older window line is empty (an empty line just went
   * by, or the first line is empty), the call only moves the window.
   */
  lemma StepSkipsAfterEmptyLine(l: Listener, text: string, width: int)
    requires Invariant(l) && !l.collecting
    requires AddToWindow(l.window, TrimLineEnd(text))[0] == ""
    ensures Step(l, text, true, width) == (l.(window := AddToWindow(l.window, TrimLineEnd(text))), Handled)
  {
  }

  /**
   * The error branch. With the message group g of the match, the message is
   * g without its last |line| characters and the call fails when g is
   * shorter than the line; the message wraps exactly when the text before
   * the current line is at least the width long in UTF-16 units, and is
   * logged otherwise.
   */
  lemma ErrorCheckCases(l: Listener, text: string, line: string, width: int)
    requires |line| <= |text|
    ensures MatchError(text).None? ==> ErrorCheck(l, text, line, width) == Some(l)
    ensures MatchError(text).Some? ==>
      var g := MatchError(text).value;
      var prior := Utf16Length(text[..|text| - |line|]);
      (ErrorCheck(l, text, line, width).None? <==> |g| < |line|) &&
      (|line| <= |g| && prior < width ==>
        ErrorCheck(l, text, line, width) == Some(l.(log := l.log + [g[..|g| - |line|]]))) &&
      (|line| <= |g| && prior >= width ==>
        var m := g[..|g| - |line|] + line;
        ErrorCheck(l, text, line, width) ==
          Some(l.(collecting := Utf16Length(line) >= width, currentMessage := Some(m),
                  log := if Utf16Length(line) < width then l.log + [m] else l.log)))
  {
  }

  /**
   * The logged error message comes from the older line: when the message
   * group reaches back past the current line, what is left of it after
   * dropping the current line's length is a suffix of the older line.
   */
  lemma ErrorMessageFromOlderLine(older: string, line: string)
    requires MatchError(older + line).Some?
    requires |line| <= |MatchError(older + line).value|
    requires 0 < |line| && !IsLineTerminator(line[|line| - 1])
    ensures var g := MatchError(older + line).value;
      var m := g[..|g| - |line|];
      |m| <= |older| && m == older[|older| - |m|..] && g == m + line
  {
    var t := older + line;
    var g := MatchError(t).value;
    var b := BeforeFinalTerminator(t);
    assert !IsLineTerminator(t[|t| - 1]) by {
      assert t[|t| - 1] == line[|line| - 1];
    }
    assert b == t by {
      assert |b| == |t|;
    }
    SuffixThroughLine(older, line, g);
  }

  /** A suffix of older + line that covers the line is a suffix of older followed by the line. */
  lemma SuffixThroughLine(older: string, line: string, g: string)
    requires |line| <= |g| <= |older + line| && g == (older + line)[|older + line| - |g|..]
    ensures var m := g[..|g| - |line|];
      |m| <= |older| && m == older[|older| - |m|..] && g == m + line
  {
    var t := older + line;
    var m := g[..|g| - |line|];
    forall k | 0 <= k < |m|
      ensures m[k] == older[|older| - |m| + k]
    {
      assert m[k] == g[k] == t[|t| - |g| + k];
    }
    assert g == m + line;
  }

  /**
   * The warning branch. The candidate is the window text without the current
   * line; it is logged when shorter than the width, otherwise it starts a
   * message into which the current line is fed at once.
   */
  lemma WarningCheckCases(l: Listener, text: string, line: string, width: int)
    requires |line| <= |text|
    ensures !StartsWithWarning(text) ==> WarningCheck(l, text, line, width) == l
    ensures StartsWithWarning(text) ==>
      var c := text[..|text| - |line|];
      (Utf16Length(c) < width ==> WarningCheck(l, text, line, width) == l.(log := l.log + [c])) &&
      (Utf16Length(c) >= width ==>
        WarningCheck(l, text, line, width) ==
          l.(collecting := Utf16Length(line) >= width, currentMessage := Some(c + line),
             log := if Utf16Length(line) < width then l.log + [c + line] else l.log))
  {
  }

  /** The warning candidate is the older window line, or empty when the window holds one line. */
  lemma WarningCandidateIsOlderLine(w: seq<string>)
    requires 1 <= |w| <= 2
    ensures var t := Join(w);
      |w[|w| - 1]| <= |t| &&
      t[..|t| - |w[|w| - 1]|] == (if |w| == 2 then w[0] else "")
  {
    JoinWindow(w);
  }

  /**
   * The log is only ever appended to: an idle call appends at most two
   * messages (the error and the warning check both run), a collecting call
   * at most one, and a failed call none.
   */
  lemma StepAppendsOnly(l: Listener, text: string, isProcessOutput: bool, width: int)
    requires Invariant(l)
    ensures var (r, outcome) := Step(l, text, isProcessOutput, width);
      l.log <= r.log &&
      |r.log| <= |l.log| + (if l.collecting then 1 else 2) &&
      (outcome == SubstringEndOutOfRange ==> r.log == l.log)
  {
  }

  /**
   * An error on the first line of idle output always fails: the message
   * group is a proper suffix of the line, so dropping the line's length
   * from it is out of range.
   */
  lemma FirstLineErrorFails(l: Listener, text: string, width: int)
    requires Invariant(l) && !l.collecting && l.window == []
    requires MatchError(TrimLineEnd(text)).Some?
    ensures Step(l, text, true, width) == (l.(window := [TrimLineEnd(text)]), SubstringEndOutOfRange)
  {
    JoinWindow([TrimLineEnd(text)]);
  }

  // ---------------------------------------------------------------------
  // Timing: a message on one line is reported when the next line arrives
  // ---------------------------------------------------------------------

  lemma TrimLineEndKeeps(s: string)
    requires NoLineTerminator(s)
    ensures TrimLineEnd(s) == s
  {
    if |s| > 0 {
      assert !IsLineTerminator(s[|s| - 1]);
    }
  }

  /** Joining the window after `line` arrives behind `older`. */
  lemma JoinAfter(l: Listener, line: string)
    requires Invariant(l) && l.window != []
    ensures var w := AddToWindow(l.window, line);
      w == [l.window[|l.window| - 1], line] && Join(w) == l.window[|l.window| - 1] + line
  {
    JoinWindow(AddToWindow(l.window, line));
  }

  /** An error line holds no line terminator when its file name and message hold none. */
  lemma ErrorLineNoTerminator(file: string, lineNumber: string, message: string)
    requires 0 < |lineNumber| && AllDigits(lineNumber) && 0 < |message|
    requires NoLineTerminator(file) && NoLineTerminator(message)
    ensures NoLineTerminator(ErrorLine(file, lineNumber, message))
  {
    var line := ErrorLine(file, lineNumber, message);
    ErrorLineParts(file, lineNumber, message);
    forall k | 0 <= k < |line| ensures !IsLineTerminator(line[k]) {
      if k < |file| {
        assert line[k] == file[k];
      } else if |file| + 1 + |lineNumber| + 2 <= k {
        assert line[k] == message[k - |file| - 1 - |lineNumber| - 2];
      }
    }
  }

  /**
   * An error line that arrives behind a non-empty line makes the call fail:
   * its message group lies inside the line itself, so it is shorter than
   * the line.
   */
  lemma ErrorLineFailsOnArrival(l: Listener, file: string, lineNumber: string, message: string, width: int)
    requires Invariant(l) && !l.collecting && l.window != []
    requires var older := l.window[|l.window| - 1];
      older != "" && NoLineTerminator(older)
    requires 0 < |lineNumber| && AllDigits(lineNumber)
    requires 0 < |message| && NoColonBeforeDigit(message)
    requires NoLineTerminator(file) && NoLineTerminator(message)
    ensures var line := ErrorLine(file, lineNumber, message);
      Step(l, line, true, width) == (l.(window := [l.window[|l.window| - 1], line]), SubstringEndOutOfRange)
  {
    var older := l.window[|l.window| - 1];
    var line := ErrorLine(file, lineNumber, message);
    ErrorLineNoTerminator(file, lineNumber, message);
    TrimLineEndKeeps(line);
    JoinAfter(l, line);
    assert older + line == ErrorLine(older + file, lineNumber, message);
    ErrorLineRoundTrip(older + file, lineNumber, message);
  }

  /** The window text when `next` arrives behind an error line, and the match found in it. */
  lemma ErrorLineThenNext(l: Listener, file: string, lineNumber: string, message: string, next: string)
    requires Invariant(l) && l.window != []
    requires l.window[|l.window| - 1] == ErrorLine(file, lineNumber, message)
    requires 0 < |lineNumber| && AllDigits(lineNumber)
    requires 0 < |message| && NoColonBeforeDigit(message + next)
    requires NoLineTerminator(file) && NoLineTerminator(message) && NoLineTerminator(next)
    ensures TrimLineEnd(next) == next
    ensures var first := ErrorLine(file, lineNumber, message);
      var w := AddToWindow(l.window, next);
      w[0] == first != "" && Join(w) == first + next &&
      MatchError(first + next) == Some(message + next)
  {
    TrimLineEndKeeps(next);
    JoinAfter(l, next);
    ErrorLineExtended(file, lineNumber, message, next);
  }

  /** Text after an error line joins its message: the match on the joined text is message + next. */
  lemma ErrorLineExtended(file: string, lineNumber: string, message: string, next: string)
    requires 0 < |lineNumber| && AllDigits(lineNumber)
    requires 0 < |message| && NoColonBeforeDigit(message + next)
    requires NoLineTerminator(file) && NoLineTerminator(message) && NoLineTerminator(next)
    ensures MatchError(ErrorLine(file, lineNumber, message) + next) == Some(message + next)
  {
    assert NoLineTerminator(message + next) by {
      forall k | 0 <= k < |message + next| ensures !IsLineTerminator((message + next)[k]) {
        if k < |message| {
          assert (message + next)[k] == message[k];
        } else {
          assert (message + next)[k] == next[k - |message|];
        }
      }
    }
    assert ErrorLine(file, lineNumber, message) + next == ErrorLine(file, lineNumber, message + next);
    ErrorLineRoundTrip(file, lineNumber, message + next);
  }

  /**
   * An error line shorter than the width is reported, with exactly its
   * message, when the next line arrives; the next line is the lookahead
   * and its text is not part of the message.
   */
  lemma ErrorReportedOnNextLine(l: Listener, file: string, lineNumber: string, message: string, next: string, width: int)
    requires Invariant(l) && !l.collecting && l.window != []
    requires l.window[|l.window| - 1] == ErrorLine(file, lineNumber, message)
    requires Utf16Length(ErrorLine(file, lineNumber, message)) < width
    requires 0 < |lineNumber| && AllDigits(lineNumber)
    requires 0 < |message| && NoColonBeforeDigit(message + next)
    requires NoLineTerminator(file) && NoLineTerminator(message) && NoLineTerminator(next)
    ensures Step(l, next, true, width).1 == Handled
    ensures l.log + [message] <= Step(l, next, true, width).0.log
  {
    var first := ErrorLine(file, lineNumber, message);
    ErrorLineThenNext(l, file, lineNumber, message, next);
    var l1 := l.(window := AddToWindow(l.window, next));
    assert (first + next)[..|first + next| - |next|] == first;
    assert (message + next)[..|message + next| - |next|] == message;
    ErrorCheckCases(l1, first + next, next, width);
  }

  /**
   * An error line that fills the width is reassembled with the next line
   * when that line is shorter than the width: one message, the error
   * message followed by the whole next line.
   */
  lemma WrappedErrorReassembled(l: Listener, file: string, lineNumber: string, message: string, next: string, width: int)
    requires Invariant(l) && !l.collecting && l.window != []
    requires l.window[|l.window| - 1] == ErrorLine(file, lineNumber, message)
    requires Utf16Length(ErrorLine(file, lineNumber, message)) >= width > Utf16Length(next)
    requires 0 < |lineNumber| && AllDigits(lineNumber)
    requires 0 < |message| && NoColonBeforeDigit(message + next)
    requires NoLineTerminator(file) && NoLineTerminator(message) && NoLineTerminator(next)
    requires !StartsWithWarning(ErrorLine(file, lineNumber, message) + next)
    ensures var (r, outcome) := Step(l, next, true, width);
      outcome == Handled && !r.collecting && r.log == l.log + [message + next]
  {
    var first := ErrorLine(file, lineNumber, message);
    ErrorLineThenNext(l, file, lineNumber, message, next);
    var l1 := l.(window := AddToWindow(l.window, next));
    assert (first + next)[..|first + next| - |next|] == first;
    assert (message + next)[..|message + next| - |next|] == message;
    ErrorCheckCases(l1, first + next, next, width);
    var l2 := l1.(collecting := false, currentMessage := Some(message + next), log := l.log + [message + next]);
    assert ErrorCheck(l1, first + next, next, width) == Some(l2);
    WarningCheckCases(l2, first + next, next, width);
    assert Step(l, next, true, width) == (l2, Handled);
  }

  /**
   * Two error lines back to back: the second fails on arrival, as every
   * error line behind a non-empty line does, and the call after it pushes
   * the first out of the window, so the first error is never reported.
   */
  lemma BackToBackErrorDropsFirst(l: Listener, file: string, lineNumber: string, message: string,
                                  file2: string, lineNumber2: string, message2: string, third: string, width: int)
    requires Invariant(l) && !l.collecting && l.window != []
    requires l.window[|l.window| - 1] == ErrorLine(file, lineNumber, message)
    requires 0 < |lineNumber| && AllDigits(lineNumber) && 0 < |message|
    requires NoLineTerminator(file) && NoLineTerminator(message)
    requires 0 < |lineNumber2| && AllDigits(lineNumber2)
    requires 0 < |message2| && NoColonBeforeDigit(message2)
    requires NoLineTerminator(file2) && NoLineTerminator(message2)
    ensures var second := ErrorLine(file2, lineNumber2, message2);
      var (r, outcome) := Step(l, second, true, width);
      outcome == SubstringEndOutOfRange && r.log == l.log && !r.collecting &&
      Step(r, third, true, width).0.window == [second, TrimLineEnd(third)]
  {
    var first := ErrorLine(file, lineNumber, message);
    var second := ErrorLine(file2, lineNumber2, message2);
    ErrorLineNoTerminator(file, lineNumber, message);
    ErrorLineFailsOnArrival(l, file2, lineNumber2, message2, width);
    StepUpdatesWindow(l.(window := [first, second]), third, width);
  }

  /**
   * A warning line is reported when the next line arrives: verbatim when it
   * is shorter than the width, and followed by the next line when it fills
   * the width and the next line is shorter.
   */
  lemma WarningReportedOnNextLine(l: Listener, next: string, width: int)
    requires Invariant(l) && !l.collecting && l.window != []
    requires var older := l.window[|l.window| - 1];
      older != "" && StartsWithWarning(older) && MatchError(older + next).None?
    requires NoLineTerminator(next)
    ensures var older := l.window[|l.window| - 1];
      var (r, outcome) := Step(l, next, true, width);
      outcome == Handled &&
      (Utf16Length(older) < width ==> !r.collecting && r.log == l.log + [older]) &&
      (Utf16Length(older) >= width > Utf16Length(next) ==> !r.collecting && r.log == l.log + [older + next])
  {
    var older := l.window[|l.window| - 1];
    TrimLineEndKeeps(next);
    JoinAfter(l, next);
    StartsWithWarningSpec(older);
    StartsWithWarningSpec(older + next);
    var p :| p in TexWarnings && p <= older;
    assert p <= older + next;
    var l1 := l.(window := AddToWindow(l.window, next));
    WarningCheckCases(l1, older + next, next, width);
    assert (older + next)[..|older + next| - |next|] == older;
  }

  /**
   * A warning on the very first line is detected with nothing before it:
   * the candidate (the text before the current line) is empty, and the
   * empty string is what gets logged.
   */
  lemma FirstLineWarningLogsEmpty(l: Listener, text: string, width: int)
    requires Invariant(l) && !l.collecting && l.window == []
    requires var line := TrimLineEnd(text);
      line != "" && StartsWithWarning(line) && MatchError(line).None?
    requires 0 < width
    ensures var (r, outcome) := Step(l, text, true, width);
      outcome == Handled && r.log == l.log + [""] && !r.collecting && r.window == [TrimLineEnd(text)]
  {
    var line := TrimLineEnd(text);
    JoinWindow([line]);
    assert line[..|line| - |line|] == "" && Utf16Length("") == 0;
    ErrorCheckCases(l.(window := [line]), line, line, width);
    WarningCheckCases(l.(window := [line]), line, line, width);
  }

  /**
   * A warning on the very first line is logged twice: the empty string on
   * arrival, and the line itself when the next line arrives, because the
   * window text still starts with the warning prefix then.
   */
  lemma FirstLineWarningLoggedTwice(l: Listener, text: string, next: string, width: int)
    requires Invariant(l) && !l.collecting && l.window == []
    requires var line := TrimLineEnd(text);
      line != "" && StartsWithWarning(line) && MatchError(line).None? && MatchError(line + next).None?
    requires 0 < width && Utf16Length(TrimLineEnd(text)) < width
    requires NoLineTerminator(next)
    ensures var r := Step(l, text, true, width).0;
      Step(r, next, true, width).0.log == l.log + ["", TrimLineEnd(text)]
  {
    var line := TrimLineEnd(text);
    var r := Step(l, text, true, width).0;
    FirstLineWarningLogsEmpty(l, text, width);
    WarningLineLoggedAfter(r, l.log, next, width);
  }

  /** The second call of `FirstLineWarningLoggedTwice`: the one-line window's warning is logged after the empty string. */
  lemma WarningLineLoggedAfter(r: Listener, log: seq<string>, next: string, width: int)
    requires Invariant(r) && !r.collecting && |r.window| == 1 && r.log == log + [""]
    requires r.window[0] != "" && StartsWithWarning(r.window[0]) && MatchError(r.window[0] + next).None?
    requires Utf16Length(r.window[0]) < width && NoLineTerminator(next)
    ensures Step(r, next, true, width).0.log == log + ["", r.window[0]]
  {
    WarningReportedOnNextLine(r, next, width);
    assert (log + [""]) + [r.window[0]] == log + ["", r.window[0]];
  }

  /**
   * A warning line directly followed by an error line is never logged: the
   * error line fails on arrival, before the warning check runs, and the call
   * after it pushes the warning line out of the window.
   */
  lemma WarningBeforeErrorLineLost(l: Listener, file: string, lineNumber: string, message: string, third: string, width: int)
    requires Invariant(l) && !l.collecting && l.window != []
    requires var older := l.window[|l.window| - 1];
      older != "" && NoLineTerminator(older) && StartsWithWarning(older)
    requires 0 < |lineNumber| && AllDigits(lineNumber)
    requires 0 < |message| && NoColonBeforeDigit(message)
    requires NoLineTerminator(file) && NoLineTerminator(message)
    ensures var line := ErrorLine(file, lineNumber, message);
      var (r, outcome) := Step(l, line, true, width);
      outcome == SubstringEndOutOfRange && r.log == l.log && !r.collecting &&
      Step(r, third, true, width).0.window == [line, TrimLineEnd(third)]
  {
    var line := ErrorLine(file, lineNumber, message);
    ErrorLineFailsOnArrival(l, file, lineNumber, message, width);
    StepUpdatesWindow(l.(window := [l.window[|l.window| - 1], line]), third, width);
  }

  // ---------------------------------------------------------------------
  // Properties of a run
  // ---------------------------------------------------------------------

  /** Over any sequence of events the log only grows: earlier messages are never changed or reordered. */
  lemma {:induction false} RunExtendsLog(l: Listener, events: seq<(string, bool)>, width: int)
    requires Invariant(l)
    ensures l.log <= Run(l, events, width).log
    ensures |Run(l, events, width).log| <= |l.log| + 2 * |events|
    decreases |events|
  {
    if events != [] {
      var next := Step(l, events[0].0, events[0].1, width).0;
      StepAppendsOnly(l, events[0].0, events[0].1, width);
      RunExtendsLog(next, events[1..], width);
    }
  }

  /** `Step` on process output, branch by branch, as the listener's method takes the branches. */
  lemma StepByBranch(l: Listener, text: string, width: int)
    requires Invariant(l)
    ensures var line := TrimLineEnd(text);
      var l1 := l.(window := AddToWindow(l.window, line));
      var joined := Join(l1.window);
      |line| <= |joined| &&
      (l.collecting ==> Step(l, text, true, width) == (CollectStep(l1, line, width), Handled)) &&
      (!l.collecting && l1.window[0] == "" ==> Step(l, text, true, width) == (l1, Handled)) &&
      (!l.collecting && l1.window[0] != "" && ErrorCheck(l1, joined, line, width).None? ==>
        Step(l, text, true, width) == (l1, SubstringEndOutOfRange)) &&
      (!l.collecting && l1.window[0] != "" && ErrorCheck(l1, joined, line, width).Some? ==>
        Step(l, text, true, width) == (WarningCheck(ErrorCheck(l1, joined, line, width).value, joined, line, width), Handled))
  {
    JoinWindow(AddToWindow(l.window, TrimLineEnd(text)));
  }

  // ---------------------------------------------------------------------
  // The listener object
  // ---------------------------------------------------------------------

  class LatexOutputListener {
    const lineWidth: int
    var window: seq<string>
    var isCollectingMessage: bool
    var currentMessageText: Option<string>
    /** The list model of the tab, which the listener appends to. */
    var listModel: seq<string>

    function State(): Listener
      reads this
    {
      Listener(window, isCollectingMessage, currentMessageText, listModel)
    }

    constructor (lineWidth: int := LineWidth)
      ensures this.lineWidth == lineWidth && State() == Initial
    {
      this.lineWidth := lineWidth;
      window := [];
      isCollectingMessage := false;
      currentMessageText := None;
      listModel := [];
    }

    method OnTextAvailable(text: string, isProcessOutput: bool) returns (outcome: Outcome)
      requires Invariant(State())
      modifies this
      ensures Invariant(State())
      ensures (State(), outcome) == Step(old(State()), text, isProcessOutput, lineWidth)
    {
      ghost var l := State();
      outcome := Handled;
      if !isProcessOutput {
        return;
      }
      var newText := TrimLineEnd(text);
      window := AddToWindow(window, newText);
      ghost var l1 := State();
      assert l1 == l.(window := AddToWindow(l.window, newText));
      var joined := Join(window);
      StepByBranch(l, text, lineWidth);

      if isCollectingMessage {
        CollectMessageLine(newText);
      } else {
        if window[0] == "" {
          return;
        }
        var completed := ReportError(joined, newText);
        if !completed {
          outcome := SubstringEndOutOfRange;
          return;
        }
        ReportWarning(joined, newText);
      }
    }

    /** The error check of an idle call; false when `substringEnd` fails, and then nothing has changed. */
    method ReportError(text: string, newText: string) returns (completed: bool)
      requires |newText| <= |text| && Invariant(State())
      modifies this
      ensures completed == ErrorCheck(old(State()), text, newText, lineWidth).Some?
      ensures completed ==> State() == ErrorCheck(old(State()), text, newText, lineWidth).value
      ensures !completed ==> State() == old(State())
    {
      completed := true;
      var group := MatchError(text);
      if group.Some? {
        var message := SubstringEnd(group.value, |newText|);
        if message.None? {
          completed := false;
          return;
        }
        if Utf16Length(text[..|text| - |newText|]) >= lineWidth {
          currentMessageText := message;
          isCollectingMessage := true;
          CollectMessageLine(newText);
        } else {
          AddMessageToLog(message.value);
        }
      }
    }

    /** The warning check of an idle call. */
    method ReportWarning(text: string, newText: string)
      requires |newText| <= |text| && Invariant(State())
      modifies this
      ensures State() == WarningCheck(old(State()), text, newText, lineWidth)
    {
      if StartsWithWarning(text) {
        var message := text[..|text| - |newText|];
        if Utf16Length(message) >= lineWidth {
          currentMessageText := Some(message);
          isCollectingMessage := true;
          CollectMessageLine(newText);
        } else {
          AddMessageToLog(message);
        }
      }
    }

    method CollectMessageLine(newText: string)
      requires currentMessageText.Some?
      modifies this
      ensures State() == CollectStep(old(State()), newText, lineWidth)
    {
      currentMessageText := Some(currentMessageText.value + newText);
      if Utf16Length(newText) < lineWidth {
        isCollectingMessage := false;
        AddMessageToLog(currentMessageText.value);
      }
    }

    method AddMessageToLog(message: string)
      modifies this
      ensures State() == old(State()).(log := old(listModel) + [message])
    {
      listModel := listModel + [message];
    }
  }
}

=== FILE: log_patterns.dfy ===
/**
 * The pattern configuration of the LaTeX log tab (the companion object of
 * LatexLogTabComponent): the error regular expression, written out as an
 * explicit matcher, the table of warning prefixes, and the two string
 * helpers the listener relies on (`trimEnd('\n', '\r')` and `substringEnd`).
 */
module LogPatterns {
  import opened Wrappers

  /** Physical line width of the compiler's log output. */
  const LineWidth: int := 79

  /** The literal, case-sensitive prefixes that mark a warning. */
  const TexWarnings: seq<string> := [
    "LaTeX Warning: ",
    "LaTeX Font Warning: ",
    "AVAIL list clobbered at",
    "Double-AVAIL list clobbered at",
    "Doubly free location at",
    "Bad flag at",
    "Runaway definition",
    "Runaway argument",
    "Runaway text",
    "Missing character: There is no",
    "No pages of output.",
    "Underfull \\hbox",
    "Overfull \\hbox",
    "Loose \\hbox",
    "Tight \\hbox",
    "Underfull \\vbox",
    "Overfull \\vbox",
    "Loose \\vbox",
    "Tight \\vbox"
  ]

  /** True when some prefix of the table, from index k on, starts `text`. */
  function StartsWithWarningFrom(text: string, k: nat): bool
    requires k <= |TexWarnings|
    decreases |TexWarnings| - k
  {
    if k == |TexWarnings| then false
    else TexWarnings[k] <= text || StartsWithWarningFrom(text, k + 1)
  }

  /** `TEX_WARNINGS.any { text.startsWith(it) }` */
  function StartsWithWarning(text: string): bool {
    StartsWithWarningFrom(text, 0)
  }

  lemma {:induction false} StartsWithWarningFromSpec(text: string, k: nat)
    requires k <= |TexWarnings|
    ensures StartsWithWarningFrom(text, k) <==> exists j :: k <= j < |TexWarnings| && TexWarnings[j] <= text
    decreases |TexWarnings| - k
  {
    if k < |TexWarnings| {
      StartsWithWarningFromSpec(text, k + 1);
    }
  }

  /** The text counts as a warning exactly when one of the table's prefixes starts it. */
  lemma StartsWithWarningSpec(text: string)
    ensures StartsWithWarning(text) <==> exists p :: p in TexWarnings && p <= text
  {
    StartsWithWarningFromSpec(text, 0);
    if StartsWithWarning(text) {
      var j :| 0 <= j < |TexWarnings| && TexWarnings[j] <= text;
      assert TexWarnings[j] in TexWarnings;
    }
    if p :| p in TexWarnings && p <= text {
      var j :| 0 <= j < |TexWarnings| && TexWarnings[j] == p;
    }
  }

  /** Kotlin's `String.length`: the number of UTF-16 code units, two for a character above U+FFFF. */
  function Utf16Length(s: string): (n: nat)
    ensures |s| <= n <= 2 * |s|
  {
    if s == [] then 0
    else Utf16Length(s[..|s| - 1]) + (if s[|s| - 1] as int >= 0x1_0000 then 2 else 1)
  }

  /** The UTF-16 length of a concatenation is the sum of the parts' lengths. */
  lemma {:induction false} Utf16LengthConcat(a: string, b: string)
    ensures Utf16Length(a + b) == Utf16Length(a) + Utf16Length(b)
    decreases |b|
  {
    if b == [] {
      assert a + b == a;
    } else {
      assert (a + b)[..|a + b| - 1] == a + b[..|b| - 1];
      Utf16LengthConcat(a, b[..|b| - 1]);
    }
  }

  /** Text of the Basic Multilingual Plane only has one UTF-16 unit per character, and only such text does. */
  lemma {:induction false} Utf16LengthBmp(s: string)
    ensures Utf16Length(s) == |s| <==> forall k :: 0 <= k < |s| ==> s[k] as int < 0x1_0000
    decreases |s|
  {
    if s != [] {
      Utf16LengthBmp(s[..|s| - 1]);
      assert forall k :: 0 <= k < |s| - 1 ==> s[..|s| - 1][k] == s[k];
    }
  }

  /** `trimEnd('\n', '\r')`: every trailing newline and carriage return removed. */
  function TrimLineEnd(s: string): (r: string)
    ensures r <= s
    ensures r == [] || (r[|r| - 1] != '\n' && r[|r| - 1] != '\r')
    ensures forall k :: |r| <= k < |s| ==> s[k] == '\n' || s[k] == '\r'
  {
    if |s| > 0 && (s[|s| - 1] == '\n' || s[|s| - 1] == '\r') then TrimLineEnd(s[..|s| - 1]) else s
  }

  /**
   * `substringEnd(n)`: the string without its last n characters. The helper
   * is defined only when n does not exceed the length; otherwise the call
   * fails (None).
   */
  function SubstringEnd(s: string, n: nat): (r: Option<string>)
    ensures r.Some? <==> n <= |s|
    ensures r.Some? ==> |r.value| == |s| - n && r.value + s[|s| - n..] == s
  {
    if n <= |s| then Some(s[..|s| - n]) else None
  }

  // ---------------------------------------------------------------------
  // The error pattern  ^(?<file>.+)?:(?<line>\d+): (?<message>.+)$
  // ---------------------------------------------------------------------

  /** The characters that the regex `.` does not match (Java's line terminators). */
  predicate IsLineTerminator(c: char) {
    c == '\n' || c == '\r' || c == '\U{0085}' || c == '\U{2028}' || c == '\U{2029}'
  }

  /** `\d` without the Unicode flag: an ASCII digit. */
  predicate IsDigit(c: char) {
    '0' <= c <= '9'
  }

  predicate NoLineTerminator(s: string) {
    forall k :: 0 <= k < |s| ==> !IsLineTerminator(s[k])
  }

  /**
   * The part of the input that `$` lets the pattern span: `$` (without
   * MULTILINE) matches at the end of the input or just before a final line
   * terminator, "\r\n" counting as one.
   */
  function BeforeFinalTerminator(s: string): (r: string)
    ensures r <= s && |s| - 2 <= |r|
    ensures |r| < |s| ==> IsLineTerminator(s[|s| - 1])
  {
    if |s| >= 2 && s[|s| - 2] == '\r' && s[|s| - 1] == '\n' then s[..|s| - 2]
    else if |s| >= 1 && IsLineTerminator(s[|s| - 1]) then s[..|s| - 1]
    else s
  }

  /** The end of the maximal run of digits starting at p. */
  function DigitsEnd(s: string, p: nat): (j: nat)
    requires p <= |s|
    ensures p <= j <= |s|
    ensures forall k :: p <= k < j ==> IsDigit(s[k])
    ensures j == |s| || !IsDigit(s[j])
    decreases |s| - p
  {
    if p < |s| && IsDigit(s[p]) then DigitsEnd(s, p + 1) else p
  }

  /**
   * The pattern, after its optional file group, can continue at the ':' at
   * index i: one or more digits (all of them, since ':' is no digit), then
   * ": ", then at least one more character.
   */
  predicate SplitsAt(s: string, i: nat) {
    i < |s| && s[i] == ':' &&
    var j := DigitsEnd(s, i + 1);
    i + 1 < j && j + 2 < |s| && s[j] == ':' && s[j + 1] == ' '
  }

  /** The `message` group when the split is at i. */
  function MessageAt(s: string, i: nat): (m: string)
    requires SplitsAt(s, i)
    ensures 0 < |m| && |m| + i + 4 <= |s|
    ensures m == s[|s| - |m|..]
  {
    s[DigitsEnd(s, i + 1) + 2..]
  }

  /**
   * The rightmost split below n. The greedy file group tries the longest
   * file name first and the empty group (split at 0) last, so the match
   * the engine reports is the one at the rightmost split.
   */
  function RightmostSplit(s: string, n: nat): (r: Option<nat>)
    requires n <= |s|
    ensures r.Some? ==> r.value < n && SplitsAt(s, r.value)
    ensures r.Some? ==> forall i :: r.value < i < n ==> !SplitsAt(s, i)
    ensures r.None? ==> forall i :: 0 <= i < n ==> !SplitsAt(s, i)
  {
    if n == 0 then None
    else if SplitsAt(s, n - 1) then Some(n - 1)
    else RightmostSplit(s, n - 1)
  }

  /** The `message` group of `ERROR_REGEX.find(text)`, or None when it does not match. */
  function MatchError(text: string): (message: Option<string>)
    ensures message.Some? ==>
      var b := BeforeFinalTerminator(text);
      0 < |message.value| && |message.value| + 4 <= |b| && message.value == b[|b| - |message.value|..]
  {
    var b := BeforeFinalTerminator(text);
    if !NoLineTerminator(b) then None
    else
      match RightmostSplit(b, |b|)
      case None => None
      case Some(i) => Some(MessageAt(b, i))
  }

  /**
   * The pattern matches exactly when the text (up to a final line
   * terminator) has no line terminator and splits somewhere; the message is
   * then the one after the rightmost split.
   */
  lemma MatchErrorIsRightmostSplit(text: string)
    ensures var b := BeforeFinalTerminator(text);
      MatchError(text).Some? <==> NoLineTerminator(b) && exists i :: SplitsAt(b, i)
    ensures var b := BeforeFinalTerminator(text);
      MatchError(text).Some? ==>
        exists i: nat :: SplitsAt(b, i) && MatchError(text).value == MessageAt(b, i) &&
          forall k :: i < k < |b| ==> !SplitsAt(b, k)
  {
    var b := BeforeFinalTerminator(text);
    if NoLineTerminator(b) && exists i :: SplitsAt(b, i) {
      var i :| SplitsAt(b, i);
      assert RightmostSplit(b, |b|).Some?;
    }
  }

  /** The digit run from p ends at q when s[p..q] are digits and s[q] is none. */
  lemma {:induction false} DigitsEndOfRun(s: string, p: nat, q: nat)
    requires p <= q < |s| && !IsDigit(s[q])
    requires forall k :: p <= k < q ==> IsDigit(s[k])
    ensures DigitsEnd(s, p) == q
    decreases q - p
  {
    if p < q {
      DigitsEndOfRun(s, p + 1, q);
    }
  }

  predicate AllDigits(s: string) {
    forall k :: 0 <= k < |s| ==> IsDigit(s[k])
  }

  /** No ':' in the text is followed by a digit, so no split of the pattern can start inside it. */
  predicate NoColonBeforeDigit(s: string) {
    forall k :: 0 <= k < |s| - 1 && s[k] == ':' ==> !IsDigit(s[k + 1])
  }

  /** An error line in the compiler's file:line:message form. */
  function ErrorLine(file: string, lineNumber: string, message: string): string {
    file + ":" + lineNumber + ": " + message
  }

  /** A split with no split to its right below n is the one RightmostSplit finds. */
  lemma {:induction false} RightmostSplitFinds(s: string, n: nat, i: nat)
    requires i < n <= |s| && SplitsAt(s, i)
    requires forall k :: i < k < n ==> !SplitsAt(s, k)
    ensures RightmostSplit(s, n) == Some(i)
    decreases n
  {
    if n - 1 != i {
      RightmostSplitFinds(s, n - 1, i);
    }
  }

  lemma ErrorLineParts(file: string, lineNumber: string, message: string)
    requires 0 < |lineNumber| && AllDigits(lineNumber) && 0 < |message|
    ensures var s := ErrorLine(file, lineNumber, message);
      var i := |file|;
      var j := i + 1 + |lineNumber|;
      j + 2 < |s| && s[i] == ':' && s[j] == ':' && s[j + 1] == ' ' &&
      (forall k :: i + 1 <= k < j ==> IsDigit(s[k])) &&
      (forall k :: 0 <= k < i ==> s[k] == file[k]) &&
      (forall k :: j + 2 <= k < |s| ==> s[k] == message[k - j - 2]) &&
      s[j + 2..] == message
  {
    var s := ErrorLine(file, lineNumber, message);
    var i := |file|;
    var j := i + 1 + |lineNumber|;
    assert s == file + [':'] + lineNumber + [':', ' '] + message;
    forall k | i + 1 <= k < j ensures IsDigit(s[k]) {
      assert s[k] == lineNumber[k - i - 1];
    }
  }

  /**
   * Matching an error line built from a file name, a line number and a
   * message gives back the message, whatever the file name holds (it may be
   * empty, or hold colons of its own), as long as no ':' of the message is
   * followed by a digit; "LaTeX Error: File not found." qualifies.
   */
  lemma ErrorLineRoundTrip(file: string, lineNumber: string, message: string)
    requires 0 < |lineNumber| && AllDigits(lineNumber)
    requires 0 < |message| && NoColonBeforeDigit(message)
    requires NoLineTerminator(file) && NoLineTerminator(message)
    ensures MatchError(ErrorLine(file, lineNumber, message)) == Some(message)
  {
    var s := ErrorLine(file, lineNumber, message);
    var i := |file|;
    var j := i + 1 + |lineNumber|;
    ErrorLineParts(file, lineNumber, message);
    assert !IsLineTerminator(s[|s| - 1]);
    assert BeforeFinalTerminator(s) == s;
    assert NoLineTerminator(s) by {
      forall k | 0 <= k < |s| ensures !IsLineTerminator(s[k]) {
        if k < i {
          assert s[k] == file[k];
        } else if j + 2 <= k {
          assert s[k] == message[k - j - 2];
        }
      }
    }
    DigitsEndOfRun(s, i + 1, j);
    assert SplitsAt(s, i);
    forall k | i < k < |s| ensures !SplitsAt(s, k) {
      if k == j {
        DigitsEndOfRun(s, j + 1, j + 1);
      } else if j + 2 <= k && s[k] == ':' && k + 1 < |s| {
        assert s[k] == message[k - j - 2] && s[k + 1] == message[k + 1 - j - 2];
        DigitsEndOfRun(s, k + 1, k + 1);
      }
    }
    RightmostSplitFinds(s, |s|, i);
  }
}

=== FILE: wrappers.dfy ===
/** Optional values: the model of Kotlin's nullable types (`T?`). */
module Wrappers {

  datatype Option<+T> = None | Some(value: T)
}
